=== FILE: README.md ===
# mezz breakpoint resolution, modelled in Dafny

mezz is a set of React hooks that report which named breakpoint an element's
width (or height) has reached. Each breakpoint rule set, such as
`{ sm: 0, md: 768, lg: 1200 }`, is an ordered list of titles and pixel
thresholds. This project models the logic behind that answer and states its
properties as contracts and lemmas:

- `getSizes` validates each entry of the rule set against the next one. It
  throws the first of four violations. Otherwise it returns one boolean per
  title and the title that is `active`.
- `useWidthHeight` guards against a missing rule set and configures the
  size tracker: the element to observe and the throttle interval, 500 ms by
  default. It resolves width first, then height, and returns the tracker's
  own ref.
- `useWidth` and `useBodyWidth` project the width result.
- `getBodyWidthConfig` turns a Tailwind `screens` object into a width rule
  set. It parses each width with `Number.parseInt`, stably sorts the pairs
  by width and sets the smallest width to 0.

Modules, one per file:

- `Wrappers` (wrappers.dfy): the `Option` and `Result` types.
- `JsNumber` (js_number.dfy): the JavaScript number semantics the code
  relies on:
  - NaN and the infinities;
  - truthiness;
  - `<`;
  - `x - 0.01`;
  - ToNumber coercion of a threshold that is not a number. The coerced
    value is carried as data.
- `Resolver` (resolver.dfy):
  - `getSizes`, as `GetSizes` over a per-entry walk `Walk`;
  - the `validationRules` table, as `ValidationRules`, `Breaks` and
    `FirstBroken`;
  - the object `getSizes` returns, as `ToObject`.
- `ResolverProps` (resolver_props.dfy): what the resolver guarantees.
  An ascending rule set, as the rows below use the term, has finite
  thresholds, none below 0, each at least 0.01 above the one before.
  - Which rule sets validation accepts.
  - Which sizes turn which flag on.
  - The guard band `[t − 0.01, t)` below each threshold, which turns no flag on.
  - The 0.01 quirk.
- `Hooks` (hooks.dfy): `useWidthHeight`, `useWidth` and `useBodyWidth`.
  The throttled resize observer is a parameter: its latest reading of
  each element.
- `NumberParsing` (parse_int.dfy): `Number.parseInt` with no radix, as
  ECMAScript's parseInt algorithm defines it. It skips white space, reads a
  sign, switches to base 16 after "0x", and reads the longest digit run.
- `Tailwind` (tailwind.dfy): `getBodyWidthConfig`. The array sort is an
  insertion sort by width, which is stable. A lemma shows it is the only
  stable arrangement sorted by width, so it is what the engine's stable
  sort returns.
- `TailwindProps` (tailwind_props.dfy): converted configurations used as
  width rule sets. When the parsed widths are distinct and not negative, such
  a configuration is ascending, so every whole-pixel width turns exactly one
  breakpoint on. Repeated widths can break this: three screens of "100px"
  convert to `[0, 100, 100]`, which `getSizes` rejects. A fractional width in the 0.01
  band just below a threshold turns none on.

## Model

| member | source | states |
|---|---|---|
| Resolver.GetSizes | src/main.ts:173-218 | Resolution succeeds exactly when every entry passes validation; on success there is one flag per entry, in rule order, each on exactly when its entry matches the size, and `active` is the title of the last flag on; on failure the error is the first failing entry's violation, with that entry's title and value and the entry after it, and names the axis |
| Resolver.FirstBroken | src/main.ts:194-205 | The rule thrown is the first rule of the table whose condition holds, and none is thrown exactly when no condition holds |
| Resolver.Breaks | src/main.ts:145-170 | The four rule conditions: a value that is not a number; a number that is NaN or infinite; a finite bound that is not 0 and lies below the threshold, with a NaN bound never out of order; a finite threshold below 0 |
| Resolver.UpperBound | src/main.ts:188-189 | The last entry's bound is NaN; any other entry's bound is the next threshold, coerced to a number, less 0.01, and is finite when that threshold is |
| Resolver.IsOn | src/main.ts:190-192 | With a finite bound, a flag is on exactly when the size equals the threshold or lies strictly between it and the bound. With the NaN bound of the last entry, it is on exactly when the size reaches the threshold |
| Resolver.LastOn | src/main.ts:183-209 | `active` is null exactly when no flag is on; otherwise it is the title of a flag that is on with no later flag on |
| Resolver.LastOnAppend | src/main.ts:209 | Each iteration makes its own title active when its flag is on and otherwise keeps the previous `active` |
| Resolver.SpreadKeys | src/main.ts:214-217 | The returned object's keys are `active` and the breakpoint titles, and no others |
| Resolver.SpreadKeepsOther | src/main.ts:214-217 | A key that no breakpoint title repeats keeps the value it had before the flags were spread |
| Resolver.SpreadKeepsLastFlag | src/main.ts:214-217 | When titles repeat, the last flag with a title sets that key |
| Resolver.ToObject | src/main.ts:214-217 | The returned object's keys are `active` and the breakpoint titles, and `active` keeps its value unless a breakpoint is titled "active". SpreadKeys, ObjectFields and ActiveTitleOverwrites are its partner lemmas |
| JsNumber.LessIsStrict | src/main.ts:162-190 | `<` on numbers is irreflexive, asymmetric and transitive, and never holds with NaN |
| JsNumber.Minus | src/main.ts:189 | Subtracting the fraction keeps a finite number finite and leaves NaN and the infinities unchanged |
| ResolverProps.ValidationOrder | src/main.ts:142-171 | The four rules are tried in this order: not a number, not finite, out of order, below 0 |
| ResolverProps.OrderingErrorExactly | src/main.ts:161-189 | An entry with threshold t is out of order exactly when a next entry exists whose number u is not 0.01 and satisfies u − 0.01 < t, or whose number is −∞ |
| ResolverProps.FirstFailingEntryThrown | src/main.ts:185-205 | When entry k is the first entry to fail validation, `getSizes` throws k's violation, naming its title and value and the entry after it |
| ResolverProps.LastNeverOrderingChecked | src/main.ts:162-189 | The last entry never fails the ordering rule, because its bound is NaN |
| ResolverProps.CheckPasses | src/main.ts:142-171 | An entry followed by a finite number passes validation exactly when it is a finite non-negative number and the next threshold is 0.01 or at least 0.01 above it |
| ResolverProps.AcceptedIffValid | src/main.ts:185-205 | A rule set passes validation exactly when its thresholds are finite, non-negative numbers and each next threshold is 0.01 or at least 0.01 higher |
| ResolverProps.OnlyFractionSlipsThrough | src/main.ts:162 | In an accepted rule set, any threshold less than 0.01 above the one before it, or below it, is exactly 0.01, and the one before is positive. Several such steps can occur in one set |
| ResolverProps.AscendingIsValid | src/main.ts:185-205 | Rule sets of finite, non-negative thresholds that rise by at least 0.01 are accepted on both axes |
| ResolverProps.FlagIsBand | src/main.ts:190-207 | In an ascending rule set, a flag is on exactly when the size equals its threshold, or lies strictly between its threshold and 0.01 below the next one, or reaches the threshold of the last entry |
| ResolverProps.AtMostOneOn | src/main.ts:190-207 | In an ascending rule set at most one flag is on |
| ResolverProps.BandOwnerIsActive | src/main.ts:207-209 | In an ascending rule set, a size in one breakpoint's band makes that breakpoint the only flag on and the active title |
| ResolverProps.LastRuleOpenEnded | src/main.ts:191-209 | In any rule set that passes validation, a size at or above the last threshold makes the last breakpoint active, however large the size is |
| ResolverProps.BelowFirstNothingOn | src/main.ts:183-192 | In an ascending rule set, a size below the first threshold turns every flag off and leaves `active` null |
| ResolverProps.GuardBandNothingOn | src/main.ts:181-190 | In an ascending rule set, a size in [t − 0.01, t) below a threshold t turns every flag off and leaves `active` null, unless it equals the previous threshold |
| ResolverProps.ExactlyOneOutsideGuardBands | src/main.ts:189-209 | In an ascending rule set, take a size at or above the first threshold and outside every guard band. Exactly one flag is on, and its title is `active` |
| ResolverProps.EmptyRules | src/main.ts:179-217 | A missing or empty rule set gives `{ active: null }` with no flags |
| ResolverProps.AbsentSizeIsZero | src/main.ts:178 | A missing size resolves as 0 |
| ResolverProps.DescendingPairFails | src/main.ts:161-189 | Two thresholds that are in the wrong order or equal fail on the first entry, and the error names both entries. The exception is a second threshold of exactly 0.01 |
| ResolverProps.FractionQuirkTwoFlagsOn | src/main.ts:162-192 | A second threshold of exactly 0.01 gives a bound of 0, which is falsy, so validation accepts it after any larger threshold. At a size equal to the larger threshold both flags are on, and the second is active |
| ResolverProps.ObjectFields | src/main.ts:214-217 | With distinct titles and none titled "active", the returned object holds `active` and one boolean per title |
| ResolverProps.ActiveTitleOverwrites | src/main.ts:214-217 | A breakpoint titled "active" overwrites the `active` field with its boolean |
| Hooks.ThrottleWait | src/main.ts:123 | The throttle interval is the given one, or 500 ms when none is given |
| Hooks.UseWidthHeight | src/main.ts:117-131 | Throws "No breakpoints specified" exactly when params are missing or give neither a width nor a height rule set. Otherwise the observed element's width error wins, then its height error, and otherwise both resolutions are returned with the tracker's own ref, never the element that was given |
| Hooks.TrackerOf | src/main.ts:121-125 | The tracker observes a given `ref` element, or its own ref when none is given, with the given throttle interval or 500 ms |
| Hooks.OnlyObservedElementMatters | src/main.ts:121-131 | The result depends only on the reading of the observed element |
| Hooks.UseWidth | src/main.ts:60-80 | Succeeds exactly when the width rules resolve against the reading of the hook's own ref; then it returns that resolution with the ref, and otherwise throws that invalid width entry |
| Hooks.UseBodyWidth | src/main.ts:26-47 | The result is the width resolution of `document.body`'s reading, and any error is an invalid width entry |
| Hooks.GuardPrecedesResolution | src/main.ts:117-119 | The missing-breakpoints error comes before any resolution |
| Hooks.EmptyWidthIsGiven | src/main.ts:117-131 | An empty width rule set satisfies the guard, and both sides resolve to nothing active |
| Hooks.WidthErrorFirst | src/main.ts:127-131 | When an entry of the width rules and an entry of the height rules both fail validation, the width error is thrown |
| NumberParsing.ParseInt | src/tailwind.ts:13 | NaN exactly when no digit follows the white space and sign, or no hex digit follows a "0x" prefix; otherwise the value of the digits, negated only after a '-'. ParseShowRoundTrip and LeadingWhiteSpaceIgnored are its partner lemmas |
| NumberParsing.TrimStart | src/tailwind.ts:13 | parseInt skips exactly the leading white space, and what remains starts with something else |
| NumberParsing.DigitRun | src/tailwind.ts:13 | The digit run is the longest prefix of digits of the base |
| NumberParsing.ReadUnsigned | src/tailwind.ts:13 | The number is NaN exactly when no digit of the base follows the sign, or follows the "0x" prefix |
| NumberParsing.ParseShowRoundTrip | src/tailwind.ts:13 | Any integer written in decimal and followed by a suffix such as "px" parses back to itself. The suffix must not start with a digit or 'x' |
| NumberParsing.LeadingWhiteSpaceIgnored | src/tailwind.ts:13 | White space before the number does not change what parseInt returns |
| Tailwind.ParsePairs | src/tailwind.ts:9-15 | One pair per `screens` entry, in entry order, with the entry's key and its value read by parseInt |
| Tailwind.GetBodyWidthConfig | src/tailwind.ts:6-29 | An empty `screens` object throws. Otherwise the result keeps the number of pairs and has width 0 first. From the second pair on, the widths never decrease. The tail, together with the parsed pair whose width was zeroed, is exactly the parsed pairs. That parsed pair has the smallest width, and it is the first parsed pair of that width. ConfigTailKeepsTies is its partner lemma for the order of tied widths |
| Tailwind.StableSort | src/tailwind.ts:17-18 | The sort returns the input pairs rearranged, none added or lost. StableSortSorts, SortKeepsTies and StableSortIsUnique are its partner lemmas |
| Tailwind.StableSortSorts | src/tailwind.ts:17-18 | The sort orders the pairs by width |
| Tailwind.SortKeepsTies | src/tailwind.ts:17-18 | The sort is stable: pairs of equal width keep their input order |
| Tailwind.StableSortIsUnique | src/tailwind.ts:17-18 | Any arrangement of the pairs that is sorted by width and keeps tied pairs in input order is the sort's result |
| Tailwind.ZeroFirst | src/tailwind.ts:20-24 | Only the first pair changes: its width becomes 0 |
| Tailwind.ConfigTailKeepsTies | src/tailwind.ts:17-24 | In a converted configuration, the pairs after the first that share a width keep the order `screens` lists them in. They are the parsed pairs of that width, without the zeroed one |
| Tailwind.TailKeepsTies | src/tailwind.ts:17-24 | Once a stable arrangement's head is removed, the rest keeps the ties of the input without that pair, when the head is the first input pair of its width |
| Tailwind.SortHeadIsFirstMinimal | src/tailwind.ts:17-24 | The pair sorted first, whose width is set to 0, is the earliest input pair of the smallest width: every input pair before it is wider |
| TailwindProps.ConfigStrictlyIncreases | src/tailwind.ts:9-24 | With distinct, non-negative parsed widths, the converted widths start at 0 and strictly increase |
| TailwindProps.ConfigPassesValidation | src/tailwind.ts:6-29 | A configuration converted from distinct, non-negative widths passes validation at any size |
| TailwindProps.WholePixelOneActive | src/tailwind.ts:6-29 | Resolving a non-negative whole-pixel size against such a configuration turns exactly one flag on, and its title is `active`. Whole pixels are needed: a fractional size in the 0.01 band below a threshold turns no flag on, by ResolverProps.GuardBandNothingOn |
| TailwindProps.RepeatedWidthRejected | src/tailwind.ts:17-24 | Without distinct widths the conversion can fail validation: widths 0, w, w are rejected, with the ordering error on the first w |

## Left out

- The throttled resize observer and React state (src/main.ts:220-236). The
  observer's latest `{ width, height }` reading of each element is a
  parameter. An element is named by a string, or is the hook's own ref. A
  `React.RefObject` given as `ref` is taken as the element it points to.
- Hooks.UseWidth: returns the ref beside the width resolution. The source
  spreads both into one object, so a breakpoint titled "ref" would be
  overwritten by the ref. That key clash is not modelled here. The same
  clash for "active" is modelled, by ResolverProps.ActiveTitleOverwrites.
- Error message text. An error carries the violation, axis, title, value and
  next entry that the message interpolates. The strings themselves are not
  built.
- Sizes are exact reals. A NaN or infinite size reading, and IEEE rounding,
  are not modelled. This includes the rounding of `next - 0.01`, and of
  parsed integers beyond 2^53.
- Negative zero. `Number.parseInt("-0")` gives −0, which JavaScript keeps
  distinct from 0. Here it is 0.
- `Object.entries` moves integer-like keys, such as `"2"`, ahead of the
  other keys. A rule set is taken as the list of entries in the order the
  engine returns them.
- String-to-number conversion. A threshold that is not a number carries its
  coerced value as data. Subtracting from a BigInt or Symbol throws a
  TypeError instead, and that is not modelled.
- Tailwind.GetBodyWidthConfig: requires every width to parse. A NaN from
  `Number.parseInt` makes the comparator return NaN, and the resulting
  order depends on the engine. Max-width screen objects are not supported
  by the source either.
- Radixes other than 10 and 16 for `Number.parseInt`. The source passes
  none, so only those two arise.

=== FILE: hooks.dfy ===
/**
 * The hooks of src/main.ts: `useWidthHeight` guards against a missing rule
 * set, configures the size tracker with a throttle interval and the element
 * to observe, and resolves width then height; `useWidth` and `useBodyWidth`
 * project its width result for an element the caller attaches and for the
 * document body. The size tracker itself (a throttled resize observer) is
 * outside the model: its latest `{ width, height }` reading of each element
 * is a parameter.
 */
module Hooks {
  import opened Wrappers
  import opened Resolver

  /**
   * An element the tracker can observe: the tracker's own ref, which the
   * hook hands back for the caller to attach, or an element given by name.
   */
  datatype Target = HookRef | Element(name: string)

  /** `document.body`, the element `useBodyWidth` observes. */
  const Body: Target := Element("body")

  /** The `params` argument of `useWidthHeight`; `ref` names a given element, None for null or undefined. */
  datatype Params = Params(width: Option<seq<Entry>>, height: Option<seq<Entry>>, ref: Option<string>, throttleWait: Option<real>)

  /** The tracker's latest reading of one element; both sides are absent before the first resize callback. */
  datatype Observed = Observed(width: Option<real>, height: Option<real>)

  /** How `useWidthHeight` configures the size tracker: the element it observes and its throttle interval. */
  datatype Tracker = Tracker(target: Target, throttleWait: real)

  /** What `useWidthHeight` returns: both resolutions and the tracker's own ref. */
  datatype Combined = Combined(width: Resolution, height: Resolution, ref: Target)

  /** What `useWidth` returns: the width resolution together with the ref to attach. */
  datatype WidthResult = WidthResult(sizes: Resolution, ref: Target)

  /** The throttle interval, in milliseconds, when none is given. */
  const DefaultThrottleWait: real := 500.0

  /** The throttle interval: the one given, or the default when none is. */
  function ThrottleWait(wait: Option<real>): (r: real)
    ensures wait.None? ==> r == DefaultThrottleWait
    ensures wait.Some? ==> r == wait.value
  {
    wait.GetOr(DefaultThrottleWait)
  }

  /**
   * The tracker configuration for `params`: a given element is observed in
   * place of the tracker's own ref, and the interval defaults when absent.
   */
  function TrackerOf(params: Params): (r: Tracker)
    ensures r.target == HookRef <==> params.ref.None?
    ensures params.ref.Some? ==> r.target == Element(params.ref.value)
    ensures params.throttleWait.None? ==> r.throttleWait == DefaultThrottleWait
    ensures params.throttleWait.Some? ==> r.throttleWait == params.throttleWait.value
  {
    var target := match params.ref
      case None => HookRef
      case Some(name) => Element(name);
    Tracker(target, ThrottleWait(params.throttleWait))
  }

  /**
   * `useWidthHeight`: throws "No breakpoints specified" when `params` is
   * absent or names neither a width nor a height rule set (an empty rule
   * set counts as given); otherwise resolves the observed element's width
   * against the width rules and then its height against the height rules,
   * the first error thrown winning. The ref it returns is always the
   * tracker's own, even when an element to observe was given.
   */
  function UseWidthHeight(params: Option<Params>, readings: Target -> Observed): (r: Result<Combined, ResolveError>)
    ensures r == Failure(NoBreakpoints) <==>
      params.None? || (params.value.width.None? && params.value.height.None?)
    ensures params.Some? && (params.value.width.Some? || params.value.height.Some?) ==>
      var t := TrackerOf(params.value).target;
      var w := GetSizes(Width, readings(t).width, params.value.width);
      var h := GetSizes(Height, readings(t).height, params.value.height);
      && (w.Failure? ==> r == Failure(w.error))
      && (w.Success? && h.Failure? ==> r == Failure(h.error))
      && (w.Success? && h.Success? ==> r == Success(Combined(w.value, h.value, HookRef)))
  {
    if params.None? || (params.value.width.None? && params.value.height.None?) then
      Failure(NoBreakpoints)
    else
      var tracker := TrackerOf(params.value);
      var observed := readings(tracker.target);
      var width :- GetSizes(Width, observed.width, params.value.width);
      var height :- GetSizes(Height, observed.height, params.value.height);
      Success(Combined(width, height, HookRef))
  }

  /**
   * `useWidth`: the width result of `useWidthHeight` with no element given,
   * so the hook's own ref is observed and handed back. A width rule set is
   * always given, so the guard never fires, and the height side, having no
   * rules, never fails.
   */
  function UseWidth(configWidth: seq<Entry>, throttleWait: Option<real>, readings: Target -> Observed): (r: Result<WidthResult, ResolveError>)
    ensures Sizes(r) == GetSizes(Width, readings(HookRef).width, Some(configWidth))
    ensures r.Success? ==> r.value.ref == HookRef
    ensures r.Failure? ==> r.error.Invalid? && r.error.axis == Width
  {
    var c :- UseWidthHeight(Some(Params(Some(configWidth), None, None, throttleWait)), readings);
    Success(WidthResult(c.width, c.ref))
  }

  /** The breakpoint part of what `useWidth` returns, without the ref. */
  function Sizes(r: Result<WidthResult, ResolveError>): Result<Resolution, ResolveError> {
    match r
    case Success(v) => Success(v.sizes)
    case Failure(e) => Failure(e)
  }

  /**
   * `useBodyWidth`: the width result of `useWidthHeight` with
   * `document.body` given as the element to observe.
   */
  function UseBodyWidth(configWidth: seq<Entry>, throttleWait: Option<real>, readings: Target -> Observed): (r: Result<Resolution, ResolveError>)
    ensures r == GetSizes(Width, readings(Body).width, Some(configWidth))
    ensures r.Failure? ==> r.error.Invalid? && r.error.axis == Width
  {
    var c :- UseWidthHeight(Some(Params(Some(configWidth), None, Some(Body.name), throttleWait)), readings);
    Success(c.width)
  }

  /** The guard fires before anything is resolved: an invalid rule set cannot mask it. */
  lemma GuardPrecedesResolution(ref: Option<string>, throttleWait: Option<real>, readings: Target -> Observed)
    ensures UseWidthHeight(None, readings) == Failure(NoBreakpoints)
    ensures UseWidthHeight(Some(Params(None, None, ref, throttleWait)), readings) == Failure(NoBreakpoints)
  {
  }

  /** An empty rule set on one axis satisfies the guard; both sides come back with nothing active. */
  lemma EmptyWidthIsGiven(throttleWait: Option<real>, readings: Target -> Observed)
    ensures UseWidthHeight(Some(Params(Some([]), None, None, throttleWait)), readings)
      == Success(Combined(Resolution(None, []), Resolution(None, []), HookRef))
  {
  }

  /** A width error is thrown even when the height rules are invalid too. */
  lemma WidthErrorFirst(width: seq<Entry>, height: seq<Entry>, i: nat, j: nat, throttleWait: Option<real>, observed: Observed)
    requires i < |width| && Check(width, i).Some?
    requires j < |height| && Check(height, j).Some?
    ensures UseWidthHeight(Some(Params(Some(width), Some(height), None, throttleWait)), _ => observed).Failure?
    ensures UseWidthHeight(Some(Params(Some(width), Some(height), None, throttleWait)), _ => observed).error.axis == Width
  {
  }

  /** Only the observed element's reading matters: readings of other elements leave the result unchanged. */
  lemma OnlyObservedElementMatters(params: Params, a: Target -> Observed, b: Target -> Observed)
    requires a(TrackerOf(params).target) == b(TrackerOf(params).target)
    ensures UseWidthHeight(Some(params), a) == UseWidthHeight(Some(params), b)
  {
  }
}

=== FILE: js_number.dfy ===
/**
 * The part of JavaScript's number semantics the breakpoint code relies on:
 * NaN and the infinities, truthiness, the `<` operator, subtraction of a
 * finite constant and the coercion of a non-number operand.
 * Finite numbers are exact reals: IEEE rounding and the sign of zero are
 * not modelled.
 */
module JsNumber {

  /** A JavaScript number. */
  datatype Num = Finite(v: real) | NaN | PosInf | NegInf

  /**
   * Any JavaScript value found where a threshold is expected. A value that is
   * not of type number (a string such as "100px", `null`, an object) keeps a
   * printable form for error messages and the number the `-` and `<`
   * operators coerce it to (ToNumber), which is supplied as data because
   * string-to-number conversion is not part of this model.
   */
  datatype Value = Number(n: Num) | Other(repr: string, coerced: Num)

  /** The number an arithmetic or relational operator sees for `x`. */
  function ToNumber(x: Value): (r: Num)
    ensures x.Number? ==> r == x.n
  {
    match x
    case Number(n) => n
    case Other(_, c) => c
  }

  /** A number that is neither NaN nor infinite. */
  predicate IsFinite(n: Num) {
    n.Finite?
  }

  /** `n - d` for a finite constant `d`: NaN and the infinities absorb it. */
  function Minus(n: Num, d: real): (r: Num)
    ensures r.Finite? <==> n.Finite?
    ensures n.Finite? ==> r.v + d == n.v
    ensures !n.Finite? ==> r == n
  {
    match n
    case Finite(v) => Finite(v - d)
    case _ => n
  }

  /** Truthiness of a number: zero and NaN are falsy, every other number is truthy. */
  predicate Truthy(n: Num) {
    match n
    case Finite(v) => v != 0.0
    case NaN => false
    case _ => true
  }

  /** The relational comparison `a < b`; any comparison with NaN is false. */
  predicate Less(a: Num, b: Num) {
    match (a, b)
    case (Finite(x), Finite(y)) => x < y
    case (NegInf, Finite(_)) => true
    case (NegInf, PosInf) => true
    case (Finite(_), PosInf) => true
    case _ => false
  }

  /** `<` on numbers is a strict order on everything but NaN, which it never relates. */
  lemma LessIsStrict(a: Num, b: Num, c: Num)
    ensures !Less(a, a)
    ensures Less(a, b) ==> !Less(b, a)
    ensures Less(a, b) && Less(b, c) ==> Less(a, c)
    ensures Less(a, b) ==> !a.NaN? && !b.NaN?
  {
  }
}

=== FILE: parse_int.dfy ===
/**
 * `Number.parseInt(s)` with no radix, as ECMAScript's parseInt algorithm
 * defines it: skip leading white space, read an optional sign, switch to
 * base 16 after a "0x" or "0X" prefix, then read the longest run of digits
 * of the base; no digit at all gives NaN (None here). The result is an
 * exact integer: rounding of integers beyond 2^53 is not modelled, and
 * "-0" reads as 0.
 */
module NumberParsing {
  import opened Wrappers

  /** White space and line terminators, the characters parseInt skips at the start. */
  predicate IsStrWhiteSpace(c: char) {
    var u := c as int;
    || u == 0x09 || u == 0x0A || u == 0x0B || u == 0x0C || u == 0x0D || u == 0x20
    || u == 0xA0 || u == 0x1680 || (0x2000 <= u <= 0x200A) || u == 0x2028 || u == 0x2029
    || u == 0x202F || u == 0x205F || u == 0x3000 || u == 0xFEFF
  }

  /** `s` without its leading white space. */
  function TrimStart(s: string): (r: string)
    ensures |r| <= |s| && r == s[|s| - |r|..]
    ensures r == [] || !IsStrWhiteSpace(r[0])
    ensures forall k :: 0 <= k < |s| - |r| ==> IsStrWhiteSpace(s[k])
  {
    if s != [] && IsStrWhiteSpace(s[0]) then TrimStart(s[1..]) else s
  }

  /** The value of `c` as a digit of base `radix` (2 to 36), if it is one. */
  function DigitValue(c: char, radix: nat): (r: Option<nat>)
    requires 2 <= radix <= 36
    ensures r.Some? ==> r.value < radix
  {
    var d :=
      if '0' <= c <= '9' then (c as int - '0' as int)
      else if 'a' <= c <= 'z' then (c as int - 'a' as int + 10)
      else if 'A' <= c <= 'Z' then (c as int - 'A' as int + 10)
      else 36;
    if d < radix then Some(d) else None
  }

  /** The length of the longest prefix of `s` made of digits of base `radix`. */
  function DigitRun(s: string, radix: nat): (n: nat)
    requires 2 <= radix <= 36
    ensures n <= |s|
    ensures forall k :: 0 <= k < n ==> DigitValue(s[k], radix).Some?
    ensures n < |s| ==> DigitValue(s[n], radix).None?
  {
    if s == [] || DigitValue(s[0], radix).None? then 0
    else 1 + DigitRun(s[1..], radix)
  }

  /** The number the digits `ds` denote in base `radix`, most significant first. */
  function DigitsValue(ds: string, radix: nat): (v: nat)
    requires 2 <= radix <= 36
    requires forall k :: 0 <= k < |ds| ==> DigitValue(ds[k], radix).Some?
  {
    if ds == [] then 0
    else
      var init := ds[..|ds| - 1];
      assert forall k :: 0 <= k < |init| ==> init[k] == ds[k];
      var high := DigitsValue(init, radix);
      var low := DigitValue(ds[|ds| - 1], radix).value;
      ShiftNonNegative(high, radix, low);
      high * radix + low
  }

  /**
   * Shifting a number up by one digit and adding a digit stays non-negative.
   * A separate lemma keeps this product away from the facts in scope in
   * `DigitsValue`, where it is costly to prove.
   */
  lemma ShiftNonNegative(high: nat, radix: nat, low: nat)
    ensures high * radix + low >= 0
  {
  }

  /** `u` starts with the "0x" or "0X" prefix that selects base 16. */
  predicate HasHexPrefix(u: string) {
    |u| >= 2 && u[0] == '0' && (u[1] == 'x' || u[1] == 'X')
  }

  /** The digits after the sign: base 16 after a hex prefix, base 10 otherwise. */
  function ReadUnsigned(u: string): (r: Option<nat>)
    ensures !HasHexPrefix(u) ==> (r.None? <==> u == [] || DigitValue(u[0], 10).None?)
    ensures HasHexPrefix(u) ==> (r.None? <==> u[2..] == [] || DigitValue(u[2], 16).None?)
  {
    var radix := if HasHexPrefix(u) then 16 else 10;
    var body := if HasHexPrefix(u) then u[2..] else u;
    var n := DigitRun(body, radix);
    if n == 0 then None else Some(DigitsValue(body[..n], radix))
  }

  /** `t` without its sign, if it starts with one. */
  function Unsigned(t: string): (u: string)
    ensures t != [] && (t[0] == '+' || t[0] == '-') ==> t == [t[0]] + u
    ensures t == [] || (t[0] != '+' && t[0] != '-') ==> u == t
  {
    if t != [] && (t[0] == '+' || t[0] == '-') then t[1..] else t
  }

  /** parseInt after the white space: an optional sign, then the digits. */
  function ParseSigned(t: string): Option<int> {
    var negative := t != [] && t[0] == '-';
    var u := Unsigned(t);
    match ReadUnsigned(u)
    case None => None
    case Some(m) =>
      var v: int := if negative then -(m as int) else m;
      Some(v)
  }

  /**
   * `Number.parseInt(s)`; None stands for NaN. It is NaN exactly when no
   * digit follows the white space and the sign; otherwise its magnitude is
   * the value of the digits, negated only after a '-'.
   */
  function ParseInt(s: string): (r: Option<int>)
    ensures r.None? <==> ReadUnsigned(Unsigned(TrimStart(s))).None?
    ensures r.Some? && TrimStart(s)[0] == '-' ==> r.value == -(ReadUnsigned(Unsigned(TrimStart(s))).value as int)
    ensures r.Some? && TrimStart(s)[0] != '-' ==> r.value == ReadUnsigned(Unsigned(TrimStart(s))).value as int
  {
    ParseSigned(TrimStart(s))
  }

  /** The character of decimal digit `d`. */
  function DigitChar(d: nat): (c: char)
    requires d < 10
    ensures DigitValue(c, 10) == Some(d)
  {
    ['0', '1', '2', '3', '4', '5', '6', '7', '8', '9'][d]
  }

  /**
   * `n` written in decimal digits, with no leading zero. `String(n)` agrees
   * only below 10^21, from where JavaScript switches to exponent notation.
   */
  function Decimal(n: nat): (s: string)
    ensures |s| > 0
    ensures forall k :: 0 <= k < |s| ==> DigitValue(s[k], 10).Some?
    ensures n < 10 <==> |s| == 1
    ensures s[0] == '0' ==> n == 0
  {
    if n < 10 then [DigitChar(n)]
    else Decimal(n / 10) + [DigitChar(n % 10)]
  }

  /** Reading back the decimal digits of `n` gives `n`. */
  lemma {:induction false} DecimalValue(n: nat)
    ensures DigitsValue(Decimal(n), 10) == n
  {
    if n >= 10 {
      var s := Decimal(n);
      assert s[..|s| - 1] == Decimal(n / 10);
      DecimalValue(n / 10);
    }
  }

  /** The digit run of `ds + rest` stops at the end of `ds` when `rest` does not start with a digit. */
  lemma {:induction false} DigitRunStops(ds: string, rest: string, radix: nat)
    requires 2 <= radix <= 36
    requires forall k :: 0 <= k < |ds| ==> DigitValue(ds[k], radix).Some?
    requires rest == [] || DigitValue(rest[0], radix).None?
    ensures DigitRun(ds + rest, radix) == |ds|
  {
    if ds != [] {
      assert (ds + rest)[1..] == ds[1..] + rest;
      DigitRunStops(ds[1..], rest, radix);
    }
  }

  /** An integer written in decimal digits, with a leading '-' when negative. */
  function Show(i: int): string {
    if i < 0 then ['-'] + Decimal(-i) else Decimal(i)
  }

  /** The decimal digits of `n` followed by a non-digit read back as `n`. */
  lemma ReadDecimal(n: nat, suffix: string)
    requires suffix == [] || (DigitValue(suffix[0], 10).None? && suffix[0] != 'x' && suffix[0] != 'X')
    ensures ReadUnsigned(Decimal(n) + suffix) == Some(n)
  {
    var digits := Decimal(n);
    var u := digits + suffix;
    DecimalValue(n);
    DigitRunStops(digits, suffix, 10);
    assert u[..|digits|] == digits;
    if |digits| >= 2 {
      assert u[1] == digits[1];
    } else if suffix != [] {
      assert u[1] == suffix[0];
    }
    assert !HasHexPrefix(u);
  }

  /** After a '-' the digits read as the negated number. */
  lemma SignedMinus(u: string)
    requires ReadUnsigned(u).Some?
    ensures ParseSigned(['-'] + u) == Some(-(ReadUnsigned(u).value as int))
  {
    assert (['-'] + u)[1..] == u;
  }

  /** Without a sign the digits read as they are. */
  lemma SignedPlain(t: string)
    requires t != [] && t[0] != '-' && t[0] != '+' && ReadUnsigned(t).Some?
    ensures ParseSigned(t) == Some(ReadUnsigned(t).value as int)
  {
  }

  /** Digits that read as `m`, after a '-', parse as `-m`. */
  lemma ParseNegative(u: string, m: nat)
    requires ReadUnsigned(u) == Some(m)
    ensures ParseInt(['-'] + u) == Some(-(m as int))
  {
    var s := ['-'] + u;
    calc {
      ParseInt(s);
      ParseSigned(TrimStart(s));
      { NoLeadingSpace(s); }
      ParseSigned(s);
      { SignedMinus(u); }
      Some(-(m as int));
    }
  }

  /** Digits that read as `m` and start with a decimal digit parse as `m`. */
  lemma ParseNonNegative(s: string, m: nat)
    requires s != [] && DigitValue(s[0], 10).Some? && ReadUnsigned(s) == Some(m)
    ensures ParseInt(s) == Some(m)
  {
    DecimalDigitIsPlain(s[0]);
    calc {
      ParseInt(s);
      ParseSigned(TrimStart(s));
      { NoLeadingSpace(s); }
      ParseSigned(s);
      { SignedPlain(s); }
      Some(m as int);
    }
  }

  /**
   * parseInt reads back any integer written in decimal and followed by a
   * suffix that starts with neither a digit nor an 'x' (which would turn a
   * leading "0" into a hex prefix), such as the "px" of "375px".
   */
  lemma {:induction false} ParseShowRoundTrip(i: int, suffix: string)
    requires suffix == [] || (DigitValue(suffix[0], 10).None? && suffix[0] != 'x' && suffix[0] != 'X')
    ensures ParseInt(Show(i) + suffix) == Some(i)
  {
    if i < 0 {
      var m: nat := -i;
      var u := Decimal(m) + suffix;
      assert Show(i) + suffix == ['-'] + u;
      ReadDecimal(m, suffix);
      ParseNegative(u, m);
    } else {
      var s := Decimal(i) + suffix;
      assert s[0] == Decimal(i)[0];
      ReadDecimal(i, suffix);
      ParseNonNegative(s, i);
    }
  }

  /** A decimal digit is one of '0' to '9', so neither a sign nor white space. */
  lemma DecimalDigitIsPlain(c: char)
    requires DigitValue(c, 10).Some?
    ensures '0' <= c <= '9' && !IsStrWhiteSpace(c)
  {
  }

  /** A string that starts with something other than white space is not trimmed. */
  lemma NoLeadingSpace(s: string)
    requires s != [] && !IsStrWhiteSpace(s[0])
    ensures TrimStart(s) == s
  {
  }

  /** White space before the number does not change what parseInt reads. */
  lemma LeadingWhiteSpaceIgnored(c: char, s: string)
    requires IsStrWhiteSpace(c)
    ensures ParseInt([c] + s) == ParseInt(s)
  {
    assert ([c] + s)[1..] == s;
    assert TrimStart([c] + s) == TrimStart(s);
  }
}

=== FILE: resolver.dfy ===
/**
 * The breakpoint resolver `getSizes` and its per-entry validation table
 * (src/main.ts). A rule set is an ordered list of (title, threshold) entries
 * taken in insertion order; the resolver walks it once, validating each
 * entry against its successor and recording one flag per entry, and throws
 * on the first invalid entry.
 */
module Resolver {
  import opened Wrappers
  import opened JsNumber

  /** Which dimension is resolved; it only labels error messages. */
  datatype Axis = Width | Height

  /** One `[title, minBp]` pair of the rule set. */
  datatype Entry = Entry(title: string, value: Value)

  /** One `[title, isActive]` pair of the result. */
  datatype Flag = Flag(title: string, on: bool)

  /** `{ active, ...flags }`: the last matching title and one flag per rule, in rule order. */
  datatype Resolution = Resolution(active: Option<string>, flags: seq<Flag>)

  /** The four entries of `validationRules`, one per error message. */
  datatype Violation = NotANumber | NotFinite | NotAscending | BelowZero

  /**
   * The errors the hooks throw: no rule set at all, or an invalid entry,
   * carrying the axis, the entry's title and value and the entry after it
   * (absent for the last entry).
   */
  datatype ResolveError =
    | NoBreakpoints
    | Invalid(violation: Violation, axis: Axis, title: string, value: Value, next: Option<Entry>)

  /** `BREAKPOINT_FRACTION`: an entry's range stops this far below the next threshold. */
  const Fraction: real := 0.01

  /** `validationRules`, in the order they are tried. */
  const ValidationRules: seq<Violation> := [NotANumber, NotFinite, NotAscending, BelowZero]

  /** The condition of one validation rule, on the entry's value and its upper bound. */
  predicate Breaks(rule: Violation, minBp: Value, maxBp: Num)
    ensures rule == NotANumber ==> (Breaks(rule, minBp, maxBp) <==> minBp.Other?)
    ensures rule == NotFinite && minBp.Number? ==> (Breaks(rule, minBp, maxBp) <==> !minBp.n.Finite?)
    ensures rule == NotAscending && maxBp.NaN? ==> !Breaks(rule, minBp, maxBp)
    ensures rule == NotAscending && minBp.Number? && minBp.n.Finite? && maxBp.Finite? ==>
      (Breaks(rule, minBp, maxBp) <==> maxBp.v != 0.0 && maxBp.v < minBp.n.v)
    ensures rule == BelowZero && minBp.Number? && minBp.n.Finite? ==> (Breaks(rule, minBp, maxBp) <==> minBp.n.v < 0.0)
  {
    match rule
    case NotANumber => !minBp.Number?
    case NotFinite => !IsFinite(ToNumber(minBp))
    case NotAscending => Truthy(maxBp) && Less(maxBp, ToNumber(minBp))
    case BelowZero => Less(ToNumber(minBp), Finite(0.0))
  }

  /** The first rule of `table` whose condition holds, if any: the one whose message is thrown. */
  function FirstBroken(table: seq<Violation>, minBp: Value, maxBp: Num): (r: Option<Violation>)
    ensures r.None? <==> forall k :: 0 <= k < |table| ==> !Breaks(table[k], minBp, maxBp)
    ensures r.Some? ==> exists k :: 0 <= k < |table| && table[k] == r.value
                                    && Breaks(table[k], minBp, maxBp)
                                    && forall j :: 0 <= j < k ==> !Breaks(table[j], minBp, maxBp)
  {
    if table == [] then None
    else if Breaks(table[0], minBp, maxBp) then Some(table[0])
    else
      var r := FirstBroken(table[1..], minBp, maxBp);
      assert forall k :: 1 <= k < |table| ==> table[k] == table[1..][k - 1];
      r
  }

  /** The entry after entry `i`, absent for the last one. */
  function NextEntry(rules: seq<Entry>, i: nat): (r: Option<Entry>)
    ensures r.Some? <==> i + 1 < |rules|
    ensures r.Some? ==> r.value == rules[i + 1]
  {
    if i + 1 < |rules| then Some(rules[i + 1]) else None
  }

  /**
   * The upper bound of entry `i`: the next threshold less the fraction. The
   * last entry has no next threshold, and subtracting from a missing value
   * gives NaN; a next value that is not a number is coerced first.
   */
  function UpperBound(rules: seq<Entry>, i: nat): (r: Num)
    ensures i + 1 >= |rules| ==> r.NaN?
    ensures i + 1 < |rules| ==> r == Minus(ToNumber(rules[i + 1].value), Fraction)
    ensures i + 1 < |rules| && ToNumber(rules[i + 1].value).Finite? ==>
      r.Finite? && r.v == ToNumber(rules[i + 1].value).v - Fraction
  {
    match NextEntry(rules, i)
    case None => NaN
    case Some(e) => Minus(ToNumber(e.value), Fraction)
  }

  /** The violation entry `i` throws, if any. */
  function Check(rules: seq<Entry>, i: nat): Option<Violation>
    requires i < |rules|
  {
    FirstBroken(ValidationRules, rules[i].value, UpperBound(rules, i))
  }

  /**
   * `isCurrentBp || isWithinLastBp` for a number threshold `minBp`: the size
   * equals the threshold, or lies strictly between it and the upper bound, or
   * the entry is the last one and the size reaches its threshold.
   */
  predicate IsOn(size: real, minBp: real, maxBp: Num, isLast: bool)
    ensures maxBp.Finite? && !isLast ==>
      (IsOn(size, minBp, maxBp, isLast) <==> size == minBp || minBp < size < maxBp.v)
    ensures maxBp.NaN? ==> (IsOn(size, minBp, maxBp, isLast) <==> size == minBp || (isLast && size > minBp))
  {
    size == minBp || (size > minBp && Less(Finite(size), maxBp)) || (isLast && size >= minBp)
  }

  /**
   * The flag of entry `i`. A threshold that is not a finite number never
   * reaches this point, because validation throws first.
   */
  predicate OnAt(size: real, rules: seq<Entry>, i: nat)
    requires i < |rules|
  {
    match rules[i].value
    case Number(Finite(m)) => IsOn(size, m, UpperBound(rules, i), i + 1 == |rules|)
    case _ => false
  }

  /** The index of the last flag that is on, or None when every flag is off. */
  function LastOnIndex(flags: seq<Flag>): (r: Option<nat>)
    ensures r.None? <==> forall k :: 0 <= k < |flags| ==> !flags[k].on
    ensures r.Some? ==> r.value < |flags| && flags[r.value].on
    ensures r.Some? ==> forall j :: r.value < j < |flags| ==> !flags[j].on
    decreases |flags|
  {
    if flags == [] then None
    else if flags[|flags| - 1].on then Some(|flags| - 1)
    else
      var init := flags[..|flags| - 1];
      assert forall k :: 0 <= k < |init| ==> init[k] == flags[k];
      LastOnIndex(init)
  }

  /** The title of the last flag that is on, or None when every flag is off. */
  function LastOn(flags: seq<Flag>): (r: Option<string>)
    ensures r.None? <==> forall k :: 0 <= k < |flags| ==> !flags[k].on
    ensures r.Some? ==> exists k :: 0 <= k < |flags| && flags[k].on && flags[k].title == r.value
                                    && forall j :: k < j < |flags| ==> !flags[j].on
  {
    match LastOnIndex(flags)
    case None => None
    case Some(k) => Some(flags[k].title)
  }

  /** Appending a flag: it becomes the last one on if it is on, else nothing changes. */
  lemma LastOnAppend(flags: seq<Flag>, f: Flag)
    ensures LastOn(flags + [f]) == if f.on then Some(f.title) else LastOn(flags)
  {
    assert (flags + [f])[..|flags|] == flags;
  }

  /** `err` is what entry `k` throws, and every entry before it passed validation. */
  ghost predicate FirstFailure(axis: Axis, rules: seq<Entry>, k: nat, err: ResolveError)
    requires k < |rules|
  {
    && Check(rules, k).Some?
    && (forall j :: 0 <= j < k ==> Check(rules, j).None?)
    && err == Invalid(Check(rules, k).value, axis, rules[k].title, rules[k].value, NextEntry(rules, k))
  }

  /** `flags` holds, in order, the titles and flags of the first `|flags|` entries. */
  ghost predicate FlagsOf(size: real, rules: seq<Entry>, flags: seq<Flag>)
    requires |flags| <= |rules|
  {
    forall k :: 0 <= k < |flags| ==> flags[k] == Flag(rules[k].title, OnAt(size, rules, k))
  }

  /** The `for` loop of `getSizes` from entry `i` on, with `acc` holding `active` and `sizes` so far. */
  function Walk(axis: Axis, size: real, rules: seq<Entry>, i: nat, acc: Resolution): (r: Result<Resolution, ResolveError>)
    requires i <= |rules| && |acc.flags| == i
    requires forall j :: 0 <= j < i ==> Check(rules, j).None?
    requires FlagsOf(size, rules, acc.flags)
    requires acc.active == LastOn(acc.flags)
    decreases |rules| - i
    ensures r.Success? <==> forall k :: i <= k < |rules| ==> Check(rules, k).None?
    ensures r.Success? ==> |r.value.flags| == |rules| && FlagsOf(size, rules, r.value.flags)
    ensures r.Success? ==> r.value.active == LastOn(r.value.flags)
    ensures r.Failure? ==> exists k :: i <= k < |rules| && FirstFailure(axis, rules, k, r.error)
    ensures r.Failure? ==> r.error.Invalid? && r.error.axis == axis
  {
    if i == |rules| then Success(acc)
    else
      match Check(rules, i)
      case Some(v) =>
        var err := Invalid(v, axis, rules[i].title, rules[i].value, NextEntry(rules, i));
        assert FirstFailure(axis, rules, i, err);
        Failure(err)
      case None =>
        var isActive := OnAt(size, rules, i);
        var flags := acc.flags + [Flag(rules[i].title, isActive)];
        assert FlagsOf(size, rules, flags) by {
          forall k | 0 <= k < |flags|
            ensures flags[k] == Flag(rules[k].title, OnAt(size, rules, k))
          {
            if k < i { assert flags[k] == acc.flags[k]; }
          }
        }
        var active := if isActive then Some(rules[i].title) else acc.active;
        LastOnAppend(acc.flags, Flag(rules[i].title, isActive));
        assert active == LastOn(flags);
        assert forall j :: 0 <= j < i + 1 ==> Check(rules, j).None?;
        Walk(axis, size, rules, i + 1, Resolution(active, flags))
  }

  /**
   * `getSizes`: resolves `size` (0 when absent) against `rules` (empty when
   * absent). It throws the first violation met walking the entries in
   * order, and otherwise returns one flag per entry and the last title
   * whose flag is on.
   */
  function GetSizes(axis: Axis, size: Option<real>, rules: Option<seq<Entry>>): (r: Result<Resolution, ResolveError>)
    ensures var R := rules.GetOr([]);
      r.Success? <==> forall k :: 0 <= k < |R| ==> Check(R, k).None?
    ensures var R := rules.GetOr([]);
      r.Success? ==> |r.value.flags| == |R| && FlagsOf(size.GetOr(0.0), R, r.value.flags)
    ensures r.Success? ==> r.value.active == LastOn(r.value.flags)
    ensures var R := rules.GetOr([]);
      r.Failure? ==> exists k :: 0 <= k < |R| && FirstFailure(axis, R, k, r.error)
    ensures r.Failure? ==> r.error.Invalid? && r.error.axis == axis
  {
    Walk(axis, size.GetOr(0.0), rules.GetOr([]), 0, Resolution(None, []))
  }

  /** A field of the object `getSizes` returns. */
  datatype Field = ActiveField(name: Option<string>) | FlagField(on: bool)

  /** The titles of `flags`. */
  function Titles(flags: seq<Flag>): (r: set<string>)
    ensures forall k :: 0 <= k < |flags| ==> flags[k].title in r
  {
    set k | 0 <= k < |flags| :: flags[k].title
  }

  /** The flags laid over `obj`: each flag sets the key of its title, a later flag winning over an earlier one. */
  function Spread(obj: map<string, Field>, flags: seq<Flag>): (r: map<string, Field>)
    ensures forall t :: t in obj ==> t in r
    ensures forall k :: 0 <= k < |flags| ==> flags[k].title in r
    decreases |flags|
  {
    if flags == [] then obj
    else
      var n := |flags| - 1;
      var init := flags[..n];
      assert forall k :: 0 <= k < n ==> init[k] == flags[k];
      Spread(obj, init)[flags[n].title := FlagField(flags[n].on)]
  }

  /** The keys after spreading: those of `obj` and the titles of the flags, and no others. */
  lemma {:induction false} SpreadKeys(obj: map<string, Field>, flags: seq<Flag>)
    ensures Spread(obj, flags).Keys == obj.Keys + Titles(flags)
    decreases |flags|
  {
    if flags != [] {
      var n := |flags| - 1;
      var init := flags[..n];
      SpreadKeys(obj, init);
      assert Titles(flags) == Titles(init) + {flags[n].title} by {
        assert forall k :: 0 <= k < n ==> init[k] == flags[k];
      }
    }
  }

  /** A key of `obj` that no flag has as its title keeps its value. */
  lemma {:induction false} SpreadKeepsOther(obj: map<string, Field>, flags: seq<Flag>, t: string)
    requires t in obj && t !in Titles(flags)
    ensures Spread(obj, flags)[t] == obj[t]
    decreases |flags|
  {
    if flags != [] {
      var n := |flags| - 1;
      var init := flags[..n];
      assert flags[n].title in Titles(flags);
      assert t !in Titles(init) by {
        assert forall k :: 0 <= k < n ==> init[k] == flags[k];
      }
      SpreadKeepsOther(obj, init, t);
    }
  }

  /** A flag whose title no later flag repeats is the value its title ends up with. */
  lemma {:induction false} SpreadKeepsLastFlag(obj: map<string, Field>, flags: seq<Flag>, k: nat)
    requires k < |flags|
    requires forall j :: k < j < |flags| ==> flags[j].title != flags[k].title
    ensures Spread(obj, flags)[flags[k].title] == FlagField(flags[k].on)
    decreases |flags|
  {
    var n := |flags| - 1;
    var init := flags[..n];
    if k < n {
      assert init[k] == flags[k];
      assert forall j :: k < j < n ==> init[j] == flags[j];
      SpreadKeepsLastFlag(obj, init, k);
    }
  }

  /**
   * The object the caller receives: the `active` field, then one boolean per
   * breakpoint title laid over it. Its keys are `active` and the titles; the
   * `active` field survives unless a breakpoint is itself titled "active".
   */
  function ToObject(r: Resolution): (obj: map<string, Field>)
    ensures obj.Keys == {"active"} + Titles(r.flags)
    ensures "active" !in Titles(r.flags) ==> obj["active"] == ActiveField(r.active)
  {
    var base := map["active" := ActiveField(r.active)];
    SpreadKeys(base, r.flags);
    if "active" in Titles(r.flags) then Spread(base, r.flags)
    else
      SpreadKeepsOther(base, r.flags, "active");
      Spread(base, r.flags)
  }
}

=== FILE: resolver_props.dfy ===
/**
 * What `getSizes` computes, stated in terms of the thresholds as real
 * numbers: which rule sets pass validation, which range of sizes each
 * breakpoint owns, and the sizes no breakpoint owns.
 */
module ResolverProps {
  import opened Wrappers
  import opened JsNumber
  import opened Resolver

  /** The threshold of an entry whose value is a finite number (0 otherwise, never consulted). */
  function Th(e: Entry): real {
    match e.value
    case Number(Finite(v)) => v
    case _ => 0.0
  }

  /** Every threshold is a finite number that is not negative. */
  ghost predicate NonNegativeNumbers(rules: seq<Entry>) {
    forall k :: 0 <= k < |rules| ==> rules[k].value.Number? && rules[k].value.n.Finite? && rules[k].value.n.v >= 0.0
  }

  /**
   * The rule sets validation lets through: non-negative finite numbers where
   * each threshold is at least `Fraction` above the one before, except that a
   * threshold of exactly `Fraction` is never compared with its predecessor.
   */
  ghost predicate ValidRules(rules: seq<Entry>) {
    && NonNegativeNumbers(rules)
    && forall k :: 0 <= k < |rules| - 1 ==> Th(rules[k + 1]) == Fraction || Th(rules[k]) + Fraction <= Th(rules[k + 1])
  }

  /** Non-negative finite thresholds, each at least `Fraction` above the one before. */
  ghost predicate Ascending(rules: seq<Entry>) {
    && NonNegativeNumbers(rules)
    && forall k :: 0 <= k < |rules| - 1 ==> Th(rules[k]) + Fraction <= Th(rules[k + 1])
  }

  /** The validation outcome written as the chain of tests the rule table performs. */
  function ReferenceCheck(minBp: Value, maxBp: Num): Option<Violation> {
    if !minBp.Number? then Some(NotANumber)
    else if !minBp.n.Finite? then Some(NotFinite)
    else if Truthy(maxBp) && Less(maxBp, minBp.n) then Some(NotAscending)
    else if minBp.n.v < 0.0 then Some(BelowZero)
    else None
  }

  /**
   * The rules are tried in the order not-a-number, non-finite, ordering,
   * negative, and the first that applies is the one thrown.
   */
  lemma ValidationOrder(minBp: Value, maxBp: Num)
    ensures FirstBroken(ValidationRules, minBp, maxBp) == ReferenceCheck(minBp, maxBp)
  {
    var t0 := ValidationRules;
    var t1 := [NotFinite, NotAscending, BelowZero];
    var t2 := [NotAscending, BelowZero];
    var t3 := [BelowZero];
    assert t0[1..] == t1 && t1[1..] == t2 && t2[1..] == t3 && t3[1..] == [];
    var r3 := FirstBroken(t3, minBp, maxBp);
    assert r3 == if Breaks(BelowZero, minBp, maxBp) then Some(BelowZero) else FirstBroken([], minBp, maxBp);
    var r2 := FirstBroken(t2, minBp, maxBp);
    assert r2 == if Breaks(NotAscending, minBp, maxBp) then Some(NotAscending) else r3;
    var r1 := FirstBroken(t1, minBp, maxBp);
    assert r1 == if Breaks(NotFinite, minBp, maxBp) then Some(NotFinite) else r2;
    assert FirstBroken(t0, minBp, maxBp) == if Breaks(NotANumber, minBp, maxBp) then Some(NotANumber) else r1;
  }

  /** The ordering check on entry `k` whose threshold is the finite number `t`. */
  lemma OrderingErrorExactly(rules: seq<Entry>, k: nat, t: real)
    requires k < |rules| && rules[k].value == Number(Finite(t))
    ensures Check(rules, k) == Some(NotAscending) <==>
      && k + 1 < |rules|
      && match ToNumber(rules[k + 1].value)
         case Finite(u) => u != Fraction && u - Fraction < t
         case NegInf => true
         case _ => false
  {
    ValidationOrder(rules[k].value, UpperBound(rules, k));
  }

  /** When entry `k` is the first to fail validation, its violation is what `getSizes` throws. */
  lemma FirstFailingEntryThrown(axis: Axis, size: Option<real>, rules: seq<Entry>, k: nat)
    requires k < |rules| && Check(rules, k).Some?
    requires forall j :: 0 <= j < k ==> Check(rules, j).None?
    ensures GetSizes(axis, size, Some(rules))
      == Failure(Invalid(Check(rules, k).value, axis, rules[k].title, rules[k].value, NextEntry(rules, k)))
  {
    var r := GetSizes(axis, size, Some(rules));
    var k' :| 0 <= k' < |rules| && FirstFailure(axis, rules, k', r.error);
    FirstFailureUnique(axis, rules, k, k', Invalid(Check(rules, k).value, axis, rules[k].title, rules[k].value, NextEntry(rules, k)), r.error);
  }

  /** At most one entry is the first to fail, so the error it throws is determined. */
  lemma FirstFailureUnique(axis: Axis, rules: seq<Entry>, k: nat, k': nat, e: ResolveError, e': ResolveError)
    requires k < |rules| && k' < |rules|
    requires FirstFailure(axis, rules, k, e) && FirstFailure(axis, rules, k', e')
    ensures k == k' && e == e'
  {
  }

  /** The last entry has no upper bound, so it is never found out of order. */
  lemma LastNeverOrderingChecked(rules: seq<Entry>)
    requires |rules| > 0
    ensures Check(rules, |rules| - 1) != Some(NotAscending)
  {
    ValidationOrder(rules[|rules| - 1].value, UpperBound(rules, |rules| - 1));
  }

  /** Entry `k` passes validation exactly when it satisfies its part of `ValidRules`. */
  lemma {:induction false} CheckPasses(rules: seq<Entry>, k: nat)
    requires k < |rules|
    requires k + 1 < |rules| ==> rules[k + 1].value.Number? && rules[k + 1].value.n.Finite?
    ensures Check(rules, k).None? <==>
      && rules[k].value.Number? && rules[k].value.n.Finite? && rules[k].value.n.v >= 0.0
      && (k + 1 < |rules| ==> Th(rules[k + 1]) == Fraction || Th(rules[k]) + Fraction <= Th(rules[k + 1]))
  {
    ValidationOrder(rules[k].value, UpperBound(rules, k));
  }

  /** A rule set passes validation exactly when it is one of `ValidRules`. */
  lemma {:induction false} AcceptedIffValid(rules: seq<Entry>)
    ensures (forall k :: 0 <= k < |rules| ==> Check(rules, k).None?) <==> ValidRules(rules)
  {
    if forall k :: 0 <= k < |rules| ==> Check(rules, k).None? {
      forall k | 0 <= k < |rules|
        ensures rules[k].value.Number? && rules[k].value.n.Finite? && rules[k].value.n.v >= 0.0
      {
        assert Check(rules, k).None?;
        ValidationOrder(rules[k].value, UpperBound(rules, k));
      }
      forall k | 0 <= k < |rules| - 1
        ensures Th(rules[k + 1]) == Fraction || Th(rules[k]) + Fraction <= Th(rules[k + 1])
      {
        CheckPasses(rules, k);
      }
    }
    if ValidRules(rules) {
      forall k | 0 <= k < |rules| ensures Check(rules, k).None? {
        CheckPasses(rules, k);
      }
    }
  }

  /** The only pairs out of order that validation lets through have `Fraction` as the later threshold. */
  lemma OnlyFractionSlipsThrough(rules: seq<Entry>, k: nat)
    requires ValidRules(rules) && k + 1 < |rules|
    requires Th(rules[k + 1]) < Th(rules[k]) + Fraction
    ensures Th(rules[k + 1]) == Fraction && Th(rules[k]) > 0.0
  {
  }

  /** Ascending rule sets pass validation. */
  lemma AscendingIsValid(rules: seq<Entry>)
    requires Ascending(rules)
    ensures ValidRules(rules)
    ensures GetSizes(Width, None, Some(rules)).Success? && GetSizes(Height, None, Some(rules)).Success?
  {
    AcceptedIffValid(rules);
  }

  /** In an ascending rule set every later threshold is at least `Fraction` higher. */
  lemma {:induction false} ThresholdsIncrease(rules: seq<Entry>, i: nat, j: nat)
    requires Ascending(rules) && i < j < |rules|
    ensures Th(rules[i]) + Fraction <= Th(rules[j])
    decreases j - i
  {
    if i + 1 < j {
      ThresholdsIncrease(rules, i + 1, j);
    }
  }

  /**
   * The sizes breakpoint `k` owns in an ascending rule set: its own threshold
   * and the open range up to `Fraction` below the next threshold; the last
   * breakpoint owns every size from its threshold up.
   */
  ghost predicate InBand(s: real, rules: seq<Entry>, k: nat)
    requires k < |rules|
  {
    if k + 1 == |rules| then Th(rules[k]) <= s
    else s == Th(rules[k]) || (Th(rules[k]) < s < Th(rules[k + 1]) - Fraction)
  }

  /** In an ascending rule set the flag of breakpoint `k` is on exactly when the size is in its band. */
  lemma FlagIsBand(axis: Axis, s: real, rules: seq<Entry>, k: nat)
    requires Ascending(rules) && k < |rules|
    ensures GetSizes(axis, Some(s), Some(rules)).Success?
    ensures GetSizes(axis, Some(s), Some(rules)).value.flags[k] == Flag(rules[k].title, InBand(s, rules, k))
  {
    AcceptedIffValid(rules);
  }

  /** In an ascending rule set no size lies in two bands. */
  lemma BandsDisjoint(s: real, rules: seq<Entry>, i: nat, j: nat)
    requires Ascending(rules) && i < j < |rules|
    ensures !(InBand(s, rules, i) && InBand(s, rules, j))
  {
    if i + 1 < j {
      ThresholdsIncrease(rules, i + 1, j);
    }
  }

  /** In an ascending rule set at most one flag is on. */
  lemma AtMostOneOn(axis: Axis, s: real, rules: seq<Entry>, i: nat, j: nat)
    requires Ascending(rules) && i < |rules| && j < |rules|
    ensures GetSizes(axis, Some(s), Some(rules)).Success?
    ensures var res := GetSizes(axis, Some(s), Some(rules)).value;
      res.flags[i].on && res.flags[j].on ==> i == j
  {
    FlagIsBand(axis, s, rules, i);
    FlagIsBand(axis, s, rules, j);
    if i < j {
      BandsDisjoint(s, rules, i, j);
    } else if j < i {
      BandsDisjoint(s, rules, j, i);
    }
  }

  /** A size in the band of breakpoint `k` makes `k` the only flag on and the active breakpoint. */
  lemma BandOwnerIsActive(axis: Axis, s: real, rules: seq<Entry>, k: nat)
    requires Ascending(rules) && k < |rules| && InBand(s, rules, k)
    ensures GetSizes(axis, Some(s), Some(rules)).Success?
    ensures var res := GetSizes(axis, Some(s), Some(rules)).value;
      && res.active == Some(rules[k].title)
      && res.flags[k].on
      && forall j :: 0 <= j < |rules| && j != k ==> !res.flags[j].on
  {
    FlagIsBand(axis, s, rules, k);
    var res := GetSizes(axis, Some(s), Some(rules)).value;
    forall j | 0 <= j < |rules| && j != k ensures !res.flags[j].on {
      AtMostOneOn(axis, s, rules, j, k);
    }
    assert res.active.Some?;
    var w :| 0 <= w < |res.flags| && res.flags[w].on && res.flags[w].title == res.active.value
             && forall j :: w < j < |res.flags| ==> !res.flags[j].on;
    AtMostOneOn(axis, s, rules, w, k);
  }

  /**
   * In any rule set validation accepts, a size at or above the last
   * threshold makes the last breakpoint active, however large: the last flag
   * is on, and no flag comes after it.
   */
  lemma LastRuleOpenEnded(axis: Axis, s: real, rules: seq<Entry>)
    requires ValidRules(rules) && |rules| > 0 && s >= Th(rules[|rules| - 1])
    ensures GetSizes(axis, Some(s), Some(rules)).Success?
    ensures GetSizes(axis, Some(s), Some(rules)).value.active == Some(rules[|rules| - 1].title)
  {
    AcceptedIffValid(rules);
    var res := GetSizes(axis, Some(s), Some(rules)).value;
    var n := |rules| - 1;
    assert res.flags[n] == Flag(rules[n].title, OnAt(s, rules, n));
    assert res.flags[n].on;
  }

  /** A size below the first threshold turns every flag off and leaves no breakpoint active. */
  lemma BelowFirstNothingOn(axis: Axis, s: real, rules: seq<Entry>)
    requires Ascending(rules) && |rules| > 0 && s < Th(rules[0])
    ensures GetSizes(axis, Some(s), Some(rules)).Success?
    ensures var res := GetSizes(axis, Some(s), Some(rules)).value;
      res.active.None? && forall k :: 0 <= k < |rules| ==> !res.flags[k].on
  {
    var res := GetSizes(axis, Some(s), Some(rules)).value;
    forall k | 0 <= k < |rules| ensures !res.flags[k].on {
      FlagIsBand(axis, s, rules, k);
      if 0 < k {
        ThresholdsIncrease(rules, 0, k);
      }
    }
  }

  /**
   * The guard band: a size from `Fraction` below threshold `k + 1` up to it
   * (other than threshold `k` itself) is owned by no breakpoint.
   */
  lemma GuardBandNothingOn(axis: Axis, s: real, rules: seq<Entry>, k: nat)
    requires Ascending(rules) && k + 1 < |rules|
    requires Th(rules[k + 1]) - Fraction <= s < Th(rules[k + 1]) && s != Th(rules[k])
    ensures GetSizes(axis, Some(s), Some(rules)).Success?
    ensures var res := GetSizes(axis, Some(s), Some(rules)).value;
      res.active.None? && forall j :: 0 <= j < |rules| ==> !res.flags[j].on
  {
    var res := GetSizes(axis, Some(s), Some(rules)).value;
    forall j | 0 <= j < |rules| ensures !res.flags[j].on {
      FlagIsBand(axis, s, rules, j);
      GuardBandInNoBand(s, rules, k, j);
    }
  }

  /** A size in the guard band below threshold `k + 1` is in the band of no breakpoint. */
  lemma GuardBandInNoBand(s: real, rules: seq<Entry>, k: nat, j: nat)
    requires Ascending(rules) && k + 1 < |rules| && j < |rules|
    requires Th(rules[k + 1]) - Fraction <= s < Th(rules[k + 1]) && s != Th(rules[k])
    ensures !InBand(s, rules, j)
  {
    if j < k {
      ThresholdsIncrease(rules, j, k);
      if j + 1 < k {
        ThresholdsIncrease(rules, j + 1, k);
      }
    } else if k + 1 < j {
      ThresholdsIncrease(rules, k + 1, j);
    }
  }

  /** `s` lies in the guard band below threshold `k`. */
  ghost predicate InGuardBand(s: real, rules: seq<Entry>, k: nat)
    requires 0 < k < |rules|
  {
    Th(rules[k]) - Fraction <= s < Th(rules[k]) && s != Th(rules[k - 1])
  }

  /** The last breakpoint whose threshold `s` reaches. */
  lemma {:induction false} LastReached(rules: seq<Entry>, s: real) returns (k: nat)
    requires Ascending(rules) && |rules| > 0 && Th(rules[0]) <= s
    ensures k < |rules| && Th(rules[k]) <= s
    ensures k + 1 < |rules| ==> s < Th(rules[k + 1])
  {
    k := 0;
    while k + 1 < |rules| && Th(rules[k + 1]) <= s
      invariant k < |rules| && Th(rules[k]) <= s
      decreases |rules| - k
    {
      k := k + 1;
    }
  }

  /**
   * For a size at or above the first threshold and outside every guard band,
   * exactly one flag is on and it names the active breakpoint.
   */
  lemma ExactlyOneOutsideGuardBands(axis: Axis, s: real, rules: seq<Entry>)
    requires Ascending(rules) && |rules| > 0 && Th(rules[0]) <= s
    requires forall k :: 0 < k < |rules| ==> !InGuardBand(s, rules, k)
    ensures GetSizes(axis, Some(s), Some(rules)).Success?
    ensures var res := GetSizes(axis, Some(s), Some(rules)).value;
      exists k :: && 0 <= k < |rules| && res.flags[k].on && res.active == Some(rules[k].title)
                  && forall j :: 0 <= j < |rules| && j != k ==> !res.flags[j].on
  {
    var k := LastReached(rules, s);
    if k + 1 < |rules| {
      assert !InGuardBand(s, rules, k + 1);
    }
    assert InBand(s, rules, k);
    BandOwnerIsActive(axis, s, rules, k);
  }

  /** With no rule set, or an empty one, the result is `{ active: null }` and no flags. */
  lemma EmptyRules(axis: Axis, size: Option<real>)
    ensures GetSizes(axis, size, None) == Success(Resolution(None, []))
    ensures GetSizes(axis, size, Some([])) == Success(Resolution(None, []))
  {
  }

  /** An absent size resolves as 0. */
  lemma AbsentSizeIsZero(axis: Axis, rules: Option<seq<Entry>>)
    ensures GetSizes(axis, None, rules) == GetSizes(axis, Some(0.0), rules)
  {
  }

  /**
   * Two adjacent thresholds in the wrong order, or equal, are rejected on the
   * first of them, naming both entries, unless the second is exactly `Fraction`.
   */
  lemma DescendingPairFails(axis: Axis, size: Option<real>, a: string, x: real, b: string, y: real)
    requires y - Fraction < x && y != Fraction
    ensures var rules := [Entry(a, Number(Finite(x))), Entry(b, Number(Finite(y)))];
      GetSizes(axis, size, Some(rules))
        == Failure(Invalid(NotAscending, axis, a, Number(Finite(x)), Some(Entry(b, Number(Finite(y))))))
  {
    var rules := [Entry(a, Number(Finite(x))), Entry(b, Number(Finite(y)))];
    OrderingErrorExactly(rules, 0, x);
    var r := GetSizes(axis, size, Some(rules));
    var k :| 0 <= k < |rules| && FirstFailure(axis, rules, k, r.error);
    assert k == 0;
  }

  /**
   * Because a bound of exactly 0 is falsy, a threshold of `Fraction` passes
   * validation after any larger one (`{ sm: 5, md: 0.01 }`, say), and at a
   * size equal to the larger threshold both flags are on and the second is
   * the active one.
   */
  lemma FractionQuirkTwoFlagsOn(axis: Axis, a: string, b: string, t: real)
    requires t >= Fraction
    ensures var rules := [Entry(a, Number(Finite(t))), Entry(b, Number(Finite(Fraction)))];
      GetSizes(axis, Some(t), Some(rules))
        == Success(Resolution(Some(b), [Flag(a, true), Flag(b, true)]))
  {
    var rules := [Entry(a, Number(Finite(t))), Entry(b, Number(Finite(Fraction)))];
    assert UpperBound(rules, 0) == Finite(0.0) && UpperBound(rules, 1) == NaN;
    assert Check(rules, 0).None? by { ValidationOrder(rules[0].value, UpperBound(rules, 0)); }
    assert Check(rules, 1).None? by { ValidationOrder(rules[1].value, UpperBound(rules, 1)); }
    var r := GetSizes(axis, Some(t), Some(rules));
    assert OnAt(t, rules, 0) && OnAt(t, rules, 1);
    assert r.value.flags == [Flag(a, true), Flag(b, true)];
    LastOnAppend([Flag(a, true)], Flag(b, true));
    assert [Flag(a, true)] + [Flag(b, true)] == r.value.flags;
  }

  /**
   * When no flag is titled "active" and titles are distinct, the returned
   * object has the key "active" holding the active title and one boolean per title.
   */
  lemma ObjectFields(r: Resolution)
    requires forall k :: 0 <= k < |r.flags| ==> r.flags[k].title != "active"
    requires forall i, j :: 0 <= i < j < |r.flags| ==> r.flags[i].title != r.flags[j].title
    ensures ToObject(r).Keys == {"active"} + Titles(r.flags)
    ensures ToObject(r)["active"] == ActiveField(r.active)
    ensures forall k :: 0 <= k < |r.flags| ==> ToObject(r)[r.flags[k].title] == FlagField(r.flags[k].on)
  {
    SpreadKeys(map["active" := ActiveField(r.active)], r.flags);
    SpreadKeepsOther(map["active" := ActiveField(r.active)], r.flags, "active");
    forall k | 0 <= k < |r.flags| ensures ToObject(r)[r.flags[k].title] == FlagField(r.flags[k].on) {
      SpreadKeepsLastFlag(map["active" := ActiveField(r.active)], r.flags, k);
    }
  }

  /** A breakpoint titled "active" overwrites the `active` field with its boolean. */
  lemma ActiveTitleOverwrites(r: Resolution, k: nat)
    requires k < |r.flags| && r.flags[k].title == "active"
    requires forall j :: k < j < |r.flags| ==> r.flags[j].title != "active"
    ensures ToObject(r)["active"] == FlagField(r.flags[k].on)
  {
    SpreadKeepsLastFlag(map["active" := ActiveField(r.active)], r.flags, k);
  }
}

=== FILE: tailwind.dfy ===
/**
 * `getBodyWidthConfig` (src/tailwind.ts): turns a Tailwind `screens` object
 * such as `{ sm: "375px", md: "768px" }` into a width rule set: each value is
 * read with `Number.parseInt`, the pairs are stably sorted by width, and the
 * smallest width is replaced by 0.
 */
module Tailwind {
  import opened Wrappers
  import opened NumberParsing

  /** One `screens` entry: a key and its CSS width string. */
  datatype Screen = Screen(key: string, value: string)

  /** One `[key, width]` pair of the converted configuration. */
  datatype Pair = Pair(key: string, px: int)

  /** Reading the first pair of an empty `screens` object throws a TypeError. */
  datatype ConvertError = NoScreens

  /** Every value reads as an integer (none gives NaN). */
  predicate Parses(screens: seq<Screen>) {
    forall k :: 0 <= k < |screens| ==> ParseInt(screens[k].value).Some?
  }

  /** The `screens` entries in order, each value read as an integer. */
  function ParsePairs(screens: seq<Screen>): (r: seq<Pair>)
    requires Parses(screens)
    ensures |r| == |screens|
    ensures forall k :: 0 <= k < |r| ==> r[k] == Pair(screens[k].key, ParseInt(screens[k].value).value)
  {
    seq(|screens|, k requires 0 <= k < |screens| && Parses(screens) => Pair(screens[k].key, ParseInt(screens[k].value).value))
  }

  /** Widths never decrease along `s`. */
  ghost predicate Sorted(s: seq<Pair>) {
    forall i, j :: 0 <= i < j < |s| ==> s[i].px <= s[j].px
  }

  /** The pairs of `s` whose width is `w`, in their order in `s`. */
  function WithPx(s: seq<Pair>, w: int): (r: seq<Pair>)
    ensures |r| <= |s|
  {
    if s == [] then []
    else (if s[0].px == w then [s[0]] else []) + WithPx(s[1..], w)
  }

  /** `WithPx` only picks pairs of `s` of width `w`. */
  lemma {:induction false} WithPxMember(s: seq<Pair>, w: int, p: Pair)
    requires p in WithPx(s, w)
    ensures p in s && p.px == w
  {
    if s[0] != p || s[0].px != w {
      WithPxMember(s[1..], w, p);
    }
  }

  /**
   * Inserts `x` before the first pair of `s` that is not narrower, so that it
   * stays ahead of the pairs of its own width.
   */
  function Insert(x: Pair, s: seq<Pair>): (r: seq<Pair>)
    ensures |r| == |s| + 1
  {
    if s == [] || x.px <= s[0].px then [x] + s
    else [s[0]] + Insert(x, s[1..])
  }

  /** Inserting adds `x` and keeps every pair of `s`. */
  lemma {:induction false} InsertPermutes(x: Pair, s: seq<Pair>)
    ensures multiset(Insert(x, s)) == multiset(s) + multiset{x}
  {
    if s != [] && x.px > s[0].px {
      InsertPermutes(x, s[1..]);
      assert s == [s[0]] + s[1..];
    }
  }

  /** A lower bound on the widths of `x` and of `s` bounds the widths after inserting. */
  lemma {:induction false} InsertAbove(x: Pair, s: seq<Pair>, b: int)
    requires b <= x.px && forall k :: 0 <= k < |s| ==> b <= s[k].px
    ensures forall k :: 0 <= k < |Insert(x, s)| ==> b <= Insert(x, s)[k].px
  {
    if s != [] && x.px > s[0].px {
      var rest := Insert(x, s[1..]);
      InsertAbove(x, s[1..], b);
      assert forall k :: 0 < k < |rest| + 1 ==> Insert(x, s)[k] == rest[k - 1];
    }
  }

  /** Inserting into a sorted sequence keeps it sorted. */
  lemma {:induction false} InsertSorted(x: Pair, s: seq<Pair>)
    requires Sorted(s)
    ensures Sorted(Insert(x, s))
  {
    if s != [] && x.px > s[0].px {
      var rest := Insert(x, s[1..]);
      InsertSorted(x, s[1..]);
      InsertAbove(x, s[1..], s[0].px);
      var r := [s[0]] + rest;
      assert Insert(x, s) == r;
      forall i, j | 0 <= i < j < |r| ensures r[i].px <= r[j].px {
        assert r[j] == rest[j - 1];
        if 0 < i {
          assert r[i] == rest[i - 1];
        }
      }
    } else {
      var r := [x] + s;
      forall i, j | 0 <= i < j < |r| ensures r[i].px <= r[j].px {
        assert r[j] == s[j - 1];
        if 0 < i {
          assert r[i] == s[i - 1];
        } else if 1 < j {
          assert s[0].px <= s[j - 1].px;
        }
      }
    }
  }

  /** A stable sort by ascending width: the engine's array sort with a comparator that subtracts widths. */
  function StableSort(s: seq<Pair>): (r: seq<Pair>)
    ensures |r| == |s|
    ensures multiset(r) == multiset(s)
  {
    if s == [] then []
    else
      assert s == [s[0]] + s[1..];
      InsertPermutes(s[0], StableSort(s[1..]));
      Insert(s[0], StableSort(s[1..]))
  }

  /** The sort orders by width. */
  lemma {:induction false} StableSortSorts(s: seq<Pair>)
    ensures Sorted(StableSort(s))
  {
    if s != [] {
      StableSortSorts(s[1..]);
      InsertSorted(s[0], StableSort(s[1..]));
    }
  }

  /** Inserting `x` leaves the pairs of every width in the order `[x] + s` has them. */
  lemma {:induction false} InsertKeepsTies(x: Pair, s: seq<Pair>, w: int)
    ensures WithPx(Insert(x, s), w) == WithPx([x] + s, w)
  {
    assert ([x] + s)[1..] == s;
    if s != [] && x.px > s[0].px {
      var rest := Insert(x, s[1..]);
      assert ([s[0]] + rest)[1..] == rest;
      assert ([x] + s[1..])[1..] == s[1..];
      InsertKeepsTies(x, s[1..], w);
    }
  }

  /** The sort is stable: the pairs of each width keep their input order. */
  lemma {:induction false} SortKeepsTies(s: seq<Pair>, w: int)
    ensures WithPx(StableSort(s), w) == WithPx(s, w)
  {
    if s != [] {
      InsertKeepsTies(s[0], StableSort(s[1..]), w);
      assert ([s[0]] + StableSort(s[1..]))[1..] == StableSort(s[1..]);
      SortKeepsTies(s[1..], w);
    }
  }

  /** The first pair of width `w` in `s` heads `WithPx(s, w)`. */
  lemma {:induction false} WithPxHead(s: seq<Pair>, w: int, k: nat)
    requires k < |s| && s[k].px == w
    requires forall j :: 0 <= j < k ==> s[j].px != w
    ensures WithPx(s, w) != [] && WithPx(s, w)[0] == s[k]
  {
    if k > 0 {
      WithPxHead(s[1..], w, k - 1);
    }
  }

  /**
   * A sorted sequence is determined by its pairs of each width: two sorted
   * sequences of one length that agree on every `WithPx` are equal.
   */
  lemma {:induction false} SortedDeterminedByTies(a: seq<Pair>, b: seq<Pair>)
    requires Sorted(a) && Sorted(b) && |a| == |b|
    requires forall w :: WithPx(a, w) == WithPx(b, w)
    ensures a == b
    decreases |a|
  {
    if a != [] {
      assert a[0].px == b[0].px by {
        WithPxHead(a, a[0].px, 0);
        WithPxHead(b, b[0].px, 0);
        WithPxMember(a, b[0].px, WithPx(a, b[0].px)[0]);
        WithPxMember(b, a[0].px, WithPx(b, a[0].px)[0]);
      }
      WithPxHead(a, a[0].px, 0);
      WithPxHead(b, b[0].px, 0);
      assert a[0] == b[0];
      forall w ensures WithPx(a[1..], w) == WithPx(b[1..], w) {
        if a[0].px == w {
          assert WithPx(a[1..], w) == WithPx(a, w)[1..];
          assert WithPx(b[1..], w) == WithPx(b, w)[1..];
        } else {
          assert WithPx(a[1..], w) == WithPx(a, w);
          assert WithPx(b[1..], w) == WithPx(b, w);
        }
      }
      SortedDeterminedByTies(a[1..], b[1..]);
      assert a == [a[0]] + a[1..] && b == [b[0]] + b[1..];
    }
  }

  /**
   * `StableSort` is the only arrangement of `s` that is sorted by width and
   * keeps the pairs of each width in input order, so it is what any stable
   * sort by width returns.
   */
  lemma StableSortIsUnique(s: seq<Pair>, t: seq<Pair>)
    requires multiset(t) == multiset(s) && Sorted(t)
    requires forall w :: WithPx(t, w) == WithPx(s, w)
    ensures t == StableSort(s)
  {
    assert |t| == |multiset(t)| == |multiset(s)| == |s|;
    forall w ensures WithPx(t, w) == WithPx(StableSort(s), w) {
      SortKeepsTies(s, w);
    }
    StableSortSorts(s);
    SortedDeterminedByTies(t, StableSort(s));
  }

  /** Sets the width of the first pair to 0 and leaves the other pairs alone. */
  function ZeroFirst(s: seq<Pair>): (r: seq<Pair>)
    requires |s| > 0
    ensures |r| == |s| && r[1..] == s[1..]
    ensures r[0] == Pair(s[0].key, 0)
  {
    if s[0].px != 0 then s[0 := Pair(s[0].key, 0)] else s
  }

  /**
   * `getBodyWidthConfig`: the parsed pairs stably sorted by width with the
   * smallest width replaced by 0; an empty `screens` object throws. The
   * result rearranges the parsed pairs: its tail is ascending and, with the
   * pair whose width was zeroed, holds exactly the parsed pairs. The zeroed
   * pair is the first parsed pair of the smallest width.
   */
  function GetBodyWidthConfig(screens: seq<Screen>): (r: Result<seq<Pair>, ConvertError>)
    requires Parses(screens)
    ensures r.Failure? <==> |screens| == 0
    ensures r.Success? ==> |r.value| == |screens| && r.value[0].px == 0
    ensures r.Success? ==> forall i, j :: 1 <= i < j < |r.value| ==> r.value[i].px <= r.value[j].px
    ensures r.Success? ==> var parsed := ParsePairs(screens);
      exists k :: && 0 <= k < |parsed| && parsed[k].key == r.value[0].key
                  && multiset(r.value[1..]) + multiset{parsed[k]} == multiset(parsed)
                  && (forall i :: 1 <= i < |r.value| ==> parsed[k].px <= r.value[i].px)
                  && (forall j :: 0 <= j < k ==> parsed[k].px < parsed[j].px)
  {
    if |screens| == 0 then Failure(NoScreens)
    else
      var parsed := ParsePairs(screens);
      ConfigFacts(parsed);
      Success(ZeroFirst(StableSort(parsed)))
  }

  /**
   * The facts `GetBodyWidthConfig` promises, about its non-empty case. They
   * are stated here once more, in the shape the function's body needs,
   * because proving them inside that body is costly.
   */
  lemma ConfigFacts(parsed: seq<Pair>)
    requires |parsed| > 0
    ensures var config := ZeroFirst(StableSort(parsed));
      && |config| == |parsed| && config[0].px == 0
      && (forall i, j :: 1 <= i < j < |config| ==> config[i].px <= config[j].px)
      && exists k :: && 0 <= k < |parsed| && parsed[k].key == config[0].key
                     && multiset(config[1..]) + multiset{parsed[k]} == multiset(parsed)
                     && (forall i :: 1 <= i < |config| ==> parsed[k].px <= config[i].px)
                     && (forall j :: 0 <= j < k ==> parsed[k].px < parsed[j].px)
  {
    var sorted := StableSort(parsed);
    var config := ZeroFirst(sorted);
    StableSortSorts(parsed);
    ZeroFirstSorted(sorted);
    var k := SortHeadIsFirstMinimal(parsed);
    assert parsed[k] == sorted[0];
  }

  /** The first pair of width `w` in `s`, by its index. */
  lemma {:induction false} WithPxFirst(s: seq<Pair>, w: int) returns (k: nat)
    requires WithPx(s, w) != []
    ensures k < |s| && s[k] == WithPx(s, w)[0]
    ensures forall j :: 0 <= j < k ==> s[j].px != w
  {
    if s[0].px == w {
      k := 0;
    } else {
      var k' := WithPxFirst(s[1..], w);
      k := k' + 1;
    }
  }

  /**
   * The sort puts first the earliest input pair of the smallest width:
   * every input pair before it is wider.
   */
  lemma SortHeadIsFirstMinimal(s: seq<Pair>) returns (k: nat)
    requires |s| > 0
    ensures k < |s| && s[k] == StableSort(s)[0]
    ensures forall j :: 0 <= j < k ==> s[k].px < s[j].px
  {
    var sorted := StableSort(s);
    var w := sorted[0].px;
    StableSortSorts(s);
    WithPxHead(sorted, w, 0);
    SortKeepsTies(s, w);
    k := WithPxFirst(s, w);
    forall j | 0 <= j < k ensures s[k].px < s[j].px {
      assert s[j] in multiset(sorted);
      var i :| 0 <= i < |sorted| && sorted[i] == s[j];
    }
  }

  /** Zeroing the first width of a sorted sequence keeps its tail ascending and above the old head. */
  lemma ZeroFirstSorted(s: seq<Pair>)
    requires |s| > 0 && Sorted(s)
    ensures var r := ZeroFirst(s);
      && (forall i, j :: 1 <= i < j < |r| ==> r[i].px <= r[j].px)
      && (forall i :: 1 <= i < |r| ==> s[0].px <= r[i].px)
      && multiset(r[1..]) + multiset{s[0]} == multiset(s)
  {
    var r := ZeroFirst(s);
    assert s == [s[0]] + s[1..];
    assert forall i :: 1 <= i < |r| ==> r[i] == s[i];
  }

  /** Every pair of the sorted sequence comes from the input. */
  lemma SortedMembers(s: seq<Pair>)
    ensures forall i :: 0 <= i < |StableSort(s)| ==> StableSort(s)[i] in s
  {
    var sorted := StableSort(s);
    forall i | 0 <= i < |sorted| ensures sorted[i] in s {
      assert sorted[i] in multiset(sorted);
    }
  }

  /** Picking by width distributes over concatenation. */
  lemma {:induction false} WithPxAppend(a: seq<Pair>, b: seq<Pair>, w: int)
    ensures WithPx(a + b, w) == WithPx(a, w) + WithPx(b, w)
  {
    if a != [] {
      var head := if a[0].px == w then [a[0]] else [];
      assert (a + b)[0] == a[0] && (a + b)[1..] == a[1..] + b;
      WithPxAppend(a[1..], b, w);
      assert WithPx(a + b, w) == head + (WithPx(a[1..], w) + WithPx(b, w));
      assert head + (WithPx(a[1..], w) + WithPx(b, w)) == (head + WithPx(a[1..], w)) + WithPx(b, w);
    } else {
      assert a + b == b;
    }
  }

  /** A sequence with no pair of width `w` has nothing to pick. */
  lemma {:induction false} WithPxNone(s: seq<Pair>, w: int)
    requires forall j :: 0 <= j < |s| ==> s[j].px != w
    ensures WithPx(s, w) == []
  {
    if s != [] {
      WithPxNone(s[1..], w);
    }
  }

  /**
   * When `sorted` keeps the ties of `s` and its head is `s[k]`, with every
   * pair before `s[k]` wider, then the rest of `sorted` keeps the ties of
   * `s` without `s[k]`.
   */
  lemma {:induction false} TailKeepsTies(s: seq<Pair>, sorted: seq<Pair>, k: nat, w: int)
    requires k < |s| && |sorted| > 0 && sorted[0] == s[k]
    requires forall j :: 0 <= j < k ==> s[k].px < s[j].px
    requires WithPx(sorted, w) == WithPx(s, w)
    ensures WithPx(sorted[1..], w) == WithPx(s[..k] + s[k + 1..], w)
  {
    var before, after := s[..k], s[k + 1..];
    WithPxAround(s, k, w);
    assert sorted == [sorted[0]] + sorted[1..];
    WithPxAppend([sorted[0]], sorted[1..], w);
    var rest := WithPx(sorted[1..], w);
    if s[k].px == w {
      WithPxNone(before, w);
      assert WithPx(sorted, w) == [s[k]] + rest;
      assert rest == ([s[k]] + rest)[1..] == ([s[k]] + WithPx(after, w))[1..];
    } else {
      assert WithPx(sorted, w) == rest;
    }
  }

  /** Picking by width from `s`, split around position `k`, and from `s` without `s[k]`. */
  lemma WithPxAround(s: seq<Pair>, k: nat, w: int)
    requires k < |s|
    ensures var before, after := s[..k], s[k + 1..];
      && WithPx(s, w) == WithPx(before, w) + (if s[k].px == w then [s[k]] else []) + WithPx(after, w)
      && WithPx(before + after, w) == WithPx(before, w) + WithPx(after, w)
  {
    var before, after := s[..k], s[k + 1..];
    assert s == before + ([s[k]] + after);
    WithPxAppend(before, [s[k]] + after, w);
    WithPxAppend([s[k]], after, w);
    WithPxAppend(before, after, w);
    assert WithPx([s[k]], w) == (if s[k].px == w then [s[k]] else []) + WithPx([], w);
  }

  /**
   * The tail of a converted configuration keeps every tie in input order:
   * for each width, its pairs of that width are those of the parsed pairs
   * with the zeroed one removed, in the order `screens` lists them.
   */
  lemma ConfigTailKeepsTies(screens: seq<Screen>, w: int) returns (k: nat)
    requires Parses(screens) && |screens| > 0
    ensures var parsed := ParsePairs(screens);
      var config := GetBodyWidthConfig(screens).value;
      && k < |parsed| && config[0] == Pair(parsed[k].key, 0)
      && (forall j :: 0 <= j < k ==> parsed[k].px < parsed[j].px)
      && WithPx(config[1..], w) == WithPx(parsed[..k] + parsed[k + 1..], w)
  {
    var parsed := ParsePairs(screens);
    var sorted := StableSort(parsed);
    k := SortHeadIsFirstMinimal(parsed);
    SortKeepsTies(parsed, w);
    TailKeepsTies(parsed, sorted, k, w);
    assert GetBodyWidthConfig(screens).value[1..] == sorted[1..];
  }
}

=== FILE: tailwind_props.dfy ===
/**
 * The converted Tailwind configuration used as a width rule set: when the
 * screen widths are distinct and not negative it passes `getSizes`
 * validation, and every whole-pixel size activates exactly one breakpoint.
 */
module TailwindProps {
  import opened Wrappers
  import opened JsNumber
  import opened Resolver
  import opened ResolverProps
  import opened NumberParsing
  import opened Tailwind

  /** The converted configuration as the rule set `getSizes` receives. */
  function ToRules(config: seq<Pair>): (r: seq<Entry>)
    ensures |r| == |config|
    ensures forall k :: 0 <= k < |r| ==> r[k] == Entry(config[k].key, Number(Finite(config[k].px as real)))
  {
    seq(|config|, k requires 0 <= k < |config| => Entry(config[k].key, Number(Finite(config[k].px as real))))
  }

  /** No two pairs of `s` have the same width. */
  ghost predicate DistinctPx(s: seq<Pair>) {
    forall i, j :: 0 <= i < j < |s| ==> s[i].px != s[j].px
  }

  /** Each width of `s` is larger than the one before. */
  ghost predicate StrictlyIncreasing(s: seq<Pair>) {
    forall i, j :: 0 <= i < j < |s| ==> s[i].px < s[j].px
  }

  /** Every screen width reads as a non-negative integer and no two are equal. */
  ghost predicate DistinctNonNegativeWidths(screens: seq<Screen>) {
    && Parses(screens)
    && (forall k :: 0 <= k < |screens| ==> ParseInt(screens[k].value).value >= 0)
    && (forall i, j :: 0 <= i < j < |screens| ==> ParseInt(screens[i].value) != ParseInt(screens[j].value))
  }

  /** A width that neither `x` nor any pair of `s` has does not appear after inserting. */
  lemma {:induction false} InsertAvoids(x: Pair, s: seq<Pair>, w: int)
    requires x.px != w && forall k :: 0 <= k < |s| ==> s[k].px != w
    ensures forall k :: 0 <= k < |Insert(x, s)| ==> Insert(x, s)[k].px != w
  {
    if s != [] && x.px > s[0].px {
      var rest := Insert(x, s[1..]);
      InsertAvoids(x, s[1..], w);
      assert forall k :: 0 < k < |rest| + 1 ==> Insert(x, s)[k] == rest[k - 1];
    }
  }

  /** Inserting a pair of a new width keeps the widths distinct. */
  lemma {:induction false} InsertDistinct(x: Pair, s: seq<Pair>)
    requires DistinctPx(s)
    requires forall k :: 0 <= k < |s| ==> s[k].px != x.px
    ensures DistinctPx(Insert(x, s))
  {
    if s != [] && x.px > s[0].px {
      var rest := Insert(x, s[1..]);
      InsertDistinct(x, s[1..]);
      InsertAvoids(x, s[1..], s[0].px);
      var r := [s[0]] + rest;
      assert Insert(x, s) == r;
      forall i, j | 0 <= i < j < |r| ensures r[i].px != r[j].px {
        assert r[j] == rest[j - 1];
        if 0 < i {
          assert r[i] == rest[i - 1];
        }
      }
    } else {
      var r := [x] + s;
      forall i, j | 0 <= i < j < |r| ensures r[i].px != r[j].px {
        assert r[j] == s[j - 1];
        if 0 < i {
          assert r[i] == s[i - 1];
        }
      }
    }
  }

  /** Sorting keeps the widths distinct. */
  lemma {:induction false} SortDistinct(s: seq<Pair>)
    requires DistinctPx(s)
    ensures DistinctPx(StableSort(s))
  {
    if s != [] {
      var rest := StableSort(s[1..]);
      SortDistinct(s[1..]);
      forall k | 0 <= k < |rest| ensures rest[k].px != s[0].px {
        assert rest[k] in multiset(rest);
        var j :| 0 <= j < |s[1..]| && s[1..][j] == rest[k];
        assert s[j + 1] == rest[k];
      }
      InsertDistinct(s[0], rest);
    }
  }

  /** Distinct screen widths parse to pairs of distinct, non-negative widths. */
  lemma ParsedDistinct(screens: seq<Screen>)
    requires DistinctNonNegativeWidths(screens)
    ensures DistinctPx(ParsePairs(screens))
    ensures forall k :: 0 <= k < |screens| ==> ParsePairs(screens)[k].px >= 0
  {
    var parsed := ParsePairs(screens);
    forall i, j | 0 <= i < j < |parsed| ensures parsed[i].px != parsed[j].px {
      assert ParseInt(screens[i].value) != ParseInt(screens[j].value);
    }
  }

  /** The sorted parsed pairs strictly increase and do not go below 0. */
  lemma SortedStrictly(screens: seq<Screen>)
    requires DistinctNonNegativeWidths(screens)
    ensures StrictlyIncreasing(StableSort(ParsePairs(screens)))
    ensures forall i :: 0 <= i < |screens| ==> StableSort(ParsePairs(screens))[i].px >= 0
  {
    var parsed := ParsePairs(screens);
    var sorted := StableSort(parsed);
    ParsedDistinct(screens);
    SortDistinct(parsed);
    StableSortSorts(parsed);
    SortedMembers(parsed);
    forall i | 0 <= i < |sorted| ensures sorted[i].px >= 0 {
      var k :| 0 <= k < |parsed| && parsed[k] == sorted[i];
    }
  }

  /**
   * With distinct non-negative widths the converted configuration starts at
   * 0 and strictly increases.
   */
  lemma ConfigStrictlyIncreases(screens: seq<Screen>)
    requires DistinctNonNegativeWidths(screens) && |screens| > 0
    ensures GetBodyWidthConfig(screens).value[0].px == 0
    ensures StrictlyIncreasing(GetBodyWidthConfig(screens).value)
  {
    var sorted := StableSort(ParsePairs(screens));
    var config := ZeroFirst(sorted);
    assert GetBodyWidthConfig(screens) == Success(config);
    SortedStrictly(screens);
    forall i, j | 0 <= i < j < |config| ensures config[i].px < config[j].px {
      assert config[j] == sorted[j];
      if i == 0 {
        assert sorted[0].px < sorted[j].px && sorted[0].px >= 0;
      } else {
        assert config[i] == sorted[i];
      }
    }
  }

  /** Strictly increasing integer widths starting at 0 form an ascending rule set. */
  lemma IncreasingWidthsAscend(config: seq<Pair>)
    requires |config| > 0 && config[0].px == 0 && StrictlyIncreasing(config)
    ensures Ascending(ToRules(config))
    ensures Th(ToRules(config)[0]) == 0.0
  {
    var rules := ToRules(config);
    forall k | 0 <= k < |rules| ensures rules[k].value.n.v >= 0.0 {
      if k > 0 {
        assert config[0].px < config[k].px;
      }
    }
    forall k | 0 <= k < |rules| - 1 ensures Th(rules[k]) + Fraction <= Th(rules[k + 1]) {
      assert config[k].px + 1 <= config[k + 1].px;
    }
  }

  /**
   * The configuration converted from distinct non-negative widths passes
   * `getSizes` validation whatever the size.
   */
  lemma ConfigPassesValidation(screens: seq<Screen>, axis: Axis, size: Option<real>)
    requires DistinctNonNegativeWidths(screens) && |screens| > 0
    ensures GetSizes(axis, size, Some(ToRules(GetBodyWidthConfig(screens).value))).Success?
  {
    var rules := ToRules(GetBodyWidthConfig(screens).value);
    ConfigStrictlyIncreases(screens);
    IncreasingWidthsAscend(GetBodyWidthConfig(screens).value);
    AcceptedIffValid(rules);
  }

  /** A whole-pixel size never falls in the guard band below a whole-pixel threshold. */
  lemma WholePixelOutsideGuardBand(n: nat, config: seq<Pair>, k: nat)
    requires 0 < k < |config|
    ensures !InGuardBand(n as real, ToRules(config), k)
  {
    var rules := ToRules(config);
    assert Th(rules[k]) == config[k].px as real;
    if n < config[k].px {
      assert n as real <= config[k].px as real - 1.0;
    }
  }

  /**
   * Resolving any whole-pixel size that is not negative against the
   * converted configuration turns exactly one flag on, and that breakpoint
   * is the active one.
   */
  lemma WholePixelOneActive(screens: seq<Screen>, axis: Axis, n: nat)
    requires DistinctNonNegativeWidths(screens) && |screens| > 0
    ensures var rules := ToRules(GetBodyWidthConfig(screens).value);
      var r := GetSizes(axis, Some(n as real), Some(rules));
      && r.Success?
      && exists k :: && 0 <= k < |rules| && r.value.flags[k].on && r.value.active == Some(rules[k].title)
                     && forall j :: 0 <= j < |rules| && j != k ==> !r.value.flags[j].on
  {
    var config := GetBodyWidthConfig(screens).value;
    var rules := ToRules(config);
    var s := n as real;
    ConfigStrictlyIncreases(screens);
    IncreasingWidthsAscend(config);
    forall k | 0 < k < |rules| ensures !InGuardBand(s, rules, k) {
      WholePixelOutsideGuardBand(n, config, k);
    }
    ExactlyOneOutsideGuardBands(axis, s, rules);
  }

  /**
   * Without distinct widths the conversion can fail validation: three screens
   * of one width convert to widths 0, w, w, and the two equal widths break the
   * ordering rule.
   */
  lemma RepeatedWidthRejected(axis: Axis, size: Option<real>, a: string, b: string, c: string, w: nat)
    requires w > 0
    ensures var rules := ToRules([Pair(a, 0), Pair(b, w), Pair(c, w)]);
      GetSizes(axis, size, Some(rules))
        == Failure(Invalid(NotAscending, axis, b, rules[1].value, Some(rules[2])))
  {
    var v := Number(Finite(w as real));
    var rules := [Entry(a, Number(Finite(0.0))), Entry(b, v), Entry(c, v)];
    assert ToRules([Pair(a, 0), Pair(b, w), Pair(c, w)]) == rules;
    CheckPasses(rules, 0);
    OrderingErrorExactly(rules, 1, w as real);
    FirstFailingEntryThrown(axis, size, rules, 1);
  }
}

=== FILE: wrappers.dfy ===
/** Option and Result: the absent value and the thrown error of the modelled code. */
module Wrappers {

  /** A value that may be absent (`undefined` / `null` on the JavaScript side). */
  datatype Option<+T> = None | Some(value: T) {

    /** The `??` operator: the value when present, otherwise the fallback. */
    function GetOr(fallback: T): (r: T)
      ensures Some? ==> r == value
      ensures None? ==> r == fallback
    {
      match this
      case Some(v) => v
      case None => fallback
    }
  }

  /** Either a returned value or the error a call throws; a thrown error aborts the call. */
  datatype Result<+R, +E> = Success(value: R) | Failure(error: E) {

    predicate IsFailure() {
      Failure?
    }

    function PropagateFailure<U>(): Result<U, E>
      requires Failure?
    {
      Failure(error)
    }

    function Extract(): R
      requires Success?
    {
      value
    }
  }
}
